=== FILE: README.md ===
# slack-notify: command input handling and status-report normalisation

slack-notify is a Slack bot. It checks a website's availability through the
UptimeRobot monitoring API and is meant to register websites for monitoring.
This project models the pure part of its command path in `app/app.py`, and
proves properties of that model:

- **Command-text splitter** (`split_text_on_pipe`). A command's text is
  `<website> | <api key>`. The splitter accepts text with exactly one `|` and
  strips both halves (module `CommandText`).
- **Website check.** The regular expression
  `^(?!https?://)[a-zA-Z0-9.-]+\.[a-zA-Z]{2,}$`, as Python's `re.match` applies
  it. This includes the negative lookahead and `$`, which also matches just
  before a final newline (module `Hostname`). The project proves that, on
  stripped text, which is what every caller passes, the regex is equivalent
  to a simpler shape: only `[A-Za-z0-9.-]`, plus a last `.` with something
  before it and at least two ASCII letters after it. On other text it also
  accepts that shape followed by one final newline. The lookahead never
  changes the verdict.
- **Provider-response normalisation** (`get_status` without its HTTP call).
  The parsed payload is checked in the source's order. It becomes an invalid
  response, no monitors, too many monitors, a `KeyError` for a missing
  monitor field, or a report. The report uses the status-code table
  (module `StatusQuery`), and `str(status)` is modelled with its inverse
  (module `Decimal`).
- **Command handlers** (`site_status`, `monitor_site`). Both run the same
  checks in the same order: empty text, then the pipe split, then the website
  check. Each check has its own fixed reply. Only text that passes all three
  reaches the status query, or the unimplemented storage step
  (module `Commands`).

Supporting modules: `Wrappers` (`Option`, `Result`) and `PyStr` (Python's
`strip` and `count`, and the first occurrence of a character, where
`split('|', 1)` cuts; the last occurrence serves only the reduced host-name
shape).

The HTTP request and JSON decoding are a function parameter,
`fetch: (string, string) -> Fetch`. It yields either a parsed `Payload` or a
request error with its text. A missing form field is `None`. A missing JSON
key is `None`.

Behaviour of the code worth knowing:

- The pattern accepts empty labels, such as `..ab` and `-.ab`
  (`Hostname.AcceptedExamples`).
- With more than one monitor, the code answers "Too many monitors". It does not
  pick one by name.

## Model

| member | source | states |
|---|---|---|
| `PyStr.Strip` | app/app.py:89-90 | the result has no whitespace at either end, and it is the input minus whitespace removed from the two ends only |
| `PyStr.StripPadded` | app/app.py:89-90 | stripping `w1 + x + w2`, with whitespace runs `w1`, `w2` and an already stripped `x`, gives back exactly `x` |
| `PyStr.StripOfStripped` | app/app.py:146 | `website.strip()` on a website that is already stripped is that website |
| `PyStr.StripIdempotent` | app/app.py:146 | stripping twice is stripping once |
| `PyStr.StripKeepsOnly` | app/app.py:89-90 | stripping introduces no character the input lacks |
| `PyStr.Count` | app/app.py:83 | the count of `c` is at most the length, and it is zero exactly when `c` does not occur |
| `PyStr.CountConcat` | app/app.py:83 | the count over a concatenation is the sum of the counts |
| `PyStr.IndexOf` | app/app.py:87 | `split('\|', 1)` cuts at a position holding the pipe, and no pipe comes before it |
| `CommandText.SplitOnPipe` | app/app.py:82-94 | succeeds exactly when the text holds one pipe; otherwise raises the format error; on success both halves hold no pipe and have no surrounding whitespace |
| `CommandText.OnlyPipeAt` | app/app.py:83-87 | when the text holds one pipe, neither side of it holds another |
| `CommandText.PipeIndex` | app/app.py:87 | `split('\|', 1)` cuts exactly at the one pipe, wherever it stands |
| `CommandText.SplitOnPipeHalves` | app/app.py:86-92 | on success the website is the stripped text before the one pipe and the key the stripped text after it |
| `CommandText.OnePipe` | app/app.py:83 | text built as pipe-free, pipe, pipe-free holds exactly one pipe |
| `CommandText.SplitRoundTrip` | app/app.py:87-92 | for a pipe-free, stripped website and key, splitting `website + ws1 + "\|" + ws2 + key` returns `(website, key)` for any whitespace `ws1`, `ws2` |
| `Hostname.IsHostnameIffBody` | app/app.py:146 | the last-dot shape holds exactly when some split point makes the pattern body `[a-zA-Z0-9.-]+\.[a-zA-Z]{2,}` (`BodyMatches`, backtracking as a choice of split point) match the whole text (both directions) |
| `Hostname.ForeignCharDefeatsBody` | app/app.py:146 | any character outside `[a-zA-Z0-9.-]` makes the pattern body fail |
| `Hostname.LookaheadRedundant` | app/app.py:146 | removing the `(?!https?://)` lookahead (`HasScheme`) would not change any verdict |
| `Hostname.RegexMatchIffHostname` | app/app.py:146 | `re.match` accepts a text exactly when it has the host-name shape, or has that shape followed by one final newline |
| `Hostname.RegexMatchOnStripped` | app/app.py:68 | on stripped text, as every caller passes it, the regex accepts exactly the host-name shape |
| `Hostname.ShapeAccepted` | app/app.py:146 | every `P + "." + T` is accepted when `P` is non-empty over `[a-zA-Z0-9.-]` and `T` is at least two ASCII letters |
| `Hostname.ColonOrSlashRejected` | app/app.py:146 | any text containing `:` or `/` is refused |
| `Hostname.SchemeOrPathVariantsRejected` | app/app.py:166 | an accepted host name is refused once `http://` or `https://` is put before it, or `/` and a path after it |
| `Hostname.AcceptedExamples` | app/app.py:146 | `sub.example.com`, `..ab` and `-.ab` are accepted |
| `Hostname.RegexMatch` | app/app.py:146 | `re.match` of the pattern: a match excludes `:` and `/` and needs at least four characters |
| `Hostname.RejectedExamples` | app/app.py:146 | `.ab`, `a.b`, `a.b1` and `localhost` are refused |
| `Decimal.NatToString` | app/app.py:127 | the rendered code is a non-empty run of digits without a leading zero |
| `Decimal.IntToString` | app/app.py:127 | `str(status)` is non-empty, starts with `-` exactly for negative codes, and is otherwise digits |
| `Decimal.NatToStringValue` | app/app.py:127 | the digits rendered for `n` have the value `n` |
| `Decimal.IntToStringRoundTrip` | app/app.py:127 | reading back the rendered status code gives the code, negative codes included |
| `Decimal.IntToStringInjective` | app/app.py:127 | distinct codes are rendered differently |
| `StatusQuery.FriendlyStatusOf` | app/app.py:119-125 | the name is "Unknown" exactly when the code is outside {0, 1, 2, 8, 9} |
| `StatusQuery.FriendlyStatusTable` | app/app.py:119-125 | 0, 1, 2, 8, 9 are named Paused, Not checked yet, Up, Seems down, Down |
| `StatusQuery.FriendlyStatusInjective` | app/app.py:119-125 | two codes with the same name are equal, or are both outside the table |
| `StatusQuery.Describe` | app/app.py:115-127 | a report comes out exactly when `friendly_name`, `url` and `status` are all present, and it carries those values with the status name from the table; otherwise the `KeyError` names the first missing key in the order `friendly_name`, `url`, `status` |
| `StatusQuery.Normalise` | app/app.py:106-129 | a `stat` other than "ok" is an invalid response whatever the monitors; else no or zero monitors is "not found"; else more than one is "too many"; else exactly one is described; the second emptiness test is unreachable |
| `StatusQuery.GetStatus` | app/app.py:100-129 | a failed request is reported with its text, and nothing else is; a received payload is normalised |
| `StatusQuery.Reply` | app/app.py:100-127 | `get_status` returns a string in every case except a missing monitor key; error replies start with "Error fetching status: " and reports with "Website: " |
| `StatusQuery.ReportShowsNameAndUrl` | app/app.py:127 | the monitor's name stands right after "Website: ", and the report ends with its URL |
| `StatusQuery.ReportShowsCode` | app/app.py:127 | reports that differ only in the status code read differently |
| `StatusQuery.ReplyIsReportIffPrefixed` | app/app.py:104-127 | a returned string starts with "Website: " exactly when it is a monitor report |
| `Commands.WebsiteAccepted` | app/app.py:146 | on a stripped website, the check accepts exactly the host-name shape, which is exactly what the regex accepts |
| `Commands.Validate` | app/app.py:136-148 | the missing-website reason exactly for absent or empty text (`not command_text`, the predicate `Given`); the format reason exactly for non-empty text without one pipe; the website reason exactly when the split website is not a host name; on success, the split's stripped, pipe-free website and key, with the website matching the regex |
| `Commands.SiteStatus` | app/app.py:135-151 | the status query runs exactly when the text is non-empty, holds one pipe and its website is a host name; it receives the stripped website and key; every other text carries the first failing check as its reason, which `SiteStatusReply` turns into that check's reply |
| `Commands.RejectionText` | app/app.py:137-147 | the prompt is the reply exactly for a missing website, the format help exactly for a bad split, the website help exactly for a bad website |
| `Commands.SiteStatusReply` | app/app.py:135-151 | `site_status` returns nothing only when the monitor report raises `KeyError`; a refused command gets the reply of the check it failed, so absent or empty text gets the prompt; a queried one gets what `get_status` returns |
| `Commands.RejectionTextInjective` | app/app.py:137-148 | the three refusal replies are pairwise different |
| `Commands.ReplyRevealsRejection` | app/app.py:135-151 | a returned string is one of the three refusal replies exactly when a check failed, so no status reply is mistaken for one |
| `Commands.MonitorSite` | app/app.py:155-173 | text is accepted exactly when it passes the same three checks; rejected text carries the first failing check as its reason |
| `Commands.MonitorSiteReply` | app/app.py:155-173 | a refused command gets the reply of the check it failed; an accepted one raises on the unbound `response`, so nothing is returned |
| `Commands.RefusalRepliesAgree` | app/app.py:136-148 | a text `site_status` refuses gets the very same reply from `monitor_site` |
| `Commands.HandlersAgree` | app/app.py:155-168 | both handlers refuse the same texts for the same reason, and accept the others with the same website and key |
| `Commands.WellFormedCommandValid` | app/app.py:140-148 | a host name and a pipe-free, stripped key joined by a whitespace-padded pipe pass every check with exactly that website and key |
| `Commands.WellFormedCommandQueried` | app/app.py:135-151 | such a command reaches the status query with that website and key, and `monitor_site` accepts it with the same |
| `Commands.NoSeparatorRejected` | app/app.py:140-144 | non-empty text without a pipe gets the format reason from both handlers |
| `Commands.ExtraSeparatorRejected` | app/app.py:160-164 | text with two pipes gets the format reason from both handlers, whatever surrounds the pipes |
| `Commands.InvalidWebsiteRejected` | app/app.py:146-148 | once the split succeeds, a website that is not a host name gets the website reason |
| `Commands.SchemeWebsiteNotHostname` | app/app.py:146 | a website written with `http://` or `https://` is not a host name |
| `Commands.SchemeRejected` | app/app.py:166-168 | `https://host \| key` passes the split and gets the website reason from both handlers |

## Left out

- The Flask routes `index` and `slack_command`, the Slack `WebClient` and the event adapter (app/app.py:37-79). They are I/O glue. `slack_command` also calls `site_status` with three arguments where it takes one. Its `monitor-site` branch never posts a reply.
- Environment loading, the start-up checks and `app.run` (app/app.py:11-35, 178-179). They are configuration and process start-up.
- Building the request URL and the `requests.post`/`response.json()` call (app/app.py:98-102). The call is the `fetch` parameter, and a `RequestException` is its `RequestFailed` text.
- Storing a site in `monitor_site` (app/app.py:170-173). It is unimplemented, and the source returns an unbound `response` there, which would raise `UnboundLocalError`. The model ends at an abstract `Accepted` outcome.
- The unused `sqlite3` and `json` imports.
- PyStr.Strip: only ASCII whitespace is stripped. Python's `str.strip()` also removes Unicode whitespace such as U+00A0, and this model does not.
- StatusQuery.Describe: the payload fields have the JSON types the provider documents: a string `stat`, a list `monitors`, string names and URLs, and integer status codes. `None` stands only for a missing key. Other shapes behave differently in the source: a `null` name or URL is printed as `None`; a string or `null` code reads "Unknown"; a float or boolean code is looked up by its numeric value and printed as Python prints it; a `monitors` object is counted by its keys; other shapes raise. The model does not represent these.

=== FILE: command_text.dfy ===
/**
 * `split_text_on_pipe`: a slash command's text is `<website> | <api key>`,
 * with exactly one pipe character.
 */
module CommandText {
  import opened Wrappers
  import opened PyStr

  const Pipe: char := '|'

  /** The message of the `ValueError` raised on malformed text. */
  const PipeFormatError: string :=
    "Input string must contain exactly one pipe (|) character separating the URL and API key."

  /** Splits the command text on its only pipe and strips both halves into
      `(website, apiKey)`; any other number of pipes is a format error. */
  function SplitOnPipe(input: string): (r: Result<(string, string), string>)
    ensures r.Success? <==> Count(input, Pipe) == 1
    ensures r.Failure? ==> r.error == PipeFormatError
    ensures r.Success? ==>
      && Pipe !in r.value.0 && Pipe !in r.value.1
      && Stripped(r.value.0) && Stripped(r.value.1)
  {
    if Count(input, Pipe) != 1 then Failure(PipeFormatError)
    else
      var i := IndexOf(input, Pipe);
      HalvesHaveNoPipe(input, i);
      Success(HalvesAround(input, i))
  }

  /** The stripped text before and after position `i`, as `(website, apiKey)`. */
  function HalvesAround(input: string, i: nat): (string, string)
    requires i < |input|
  {
    (Strip(input[..i]), Strip(input[i + 1..]))
  }

  /** When `s` holds one pipe, at position `i`, neither side of it holds another. */
  lemma OnlyPipeAt(s: string, i: nat)
    requires i < |s| && s[i] == Pipe
    requires Count(s, Pipe) == 1
    ensures Pipe !in s[..i] && Pipe !in s[i + 1..]
  {
    assert s == s[..i] + ([s[i]] + s[i + 1..]);
    CountConcat(s[..i], [s[i]] + s[i + 1..], Pipe);
    CountConcat([s[i]], s[i + 1..], Pipe);
  }

  /** ... and neither does the stripped text on either side. */
  lemma HalvesHaveNoPipe(s: string, i: nat)
    requires i < |s| && s[i] == Pipe
    requires Count(s, Pipe) == 1
    ensures Pipe !in Strip(s[..i]) && Pipe !in Strip(s[i + 1..])
  {
    OnlyPipeAt(s, i);
    StripKeepsOnly(s[..i], Pipe);
    StripKeepsOnly(s[i + 1..], Pipe);
  }

  /** `find` returns the only position where the character occurs. */
  lemma IndexOfUnique(s: string, c: char, j: nat)
    requires j < |s| && s[j] == c && c !in s[..j]
    ensures IndexOf(s, c) == j
  {
  }

  /** `find` locates the one pipe wherever it stands. */
  lemma PipeIndex(s: string, i: nat)
    requires i < |s| && s[i] == Pipe
    requires Count(s, Pipe) == 1
    ensures IndexOf(s, Pipe) == i
  {
    OnlyPipeAt(s, i);
    IndexOfUnique(s, Pipe, i);
  }

  /** Wherever the one pipe stands, the halves are the stripped text before
      it and the stripped text after it. */
  lemma SplitOnPipeHalves(input: string, i: nat)
    requires i < |input| && input[i] == Pipe
    requires Count(input, Pipe) == 1
    ensures SplitOnPipe(input) == Success(HalvesAround(input, i))
  {
    PipeIndex(input, i);
  }

  /** Text made of a pipe-free part, a pipe and a pipe-free part holds one pipe. */
  lemma OnePipe(before: string, after: string)
    requires Pipe !in before && Pipe !in after
    ensures Count(before + [Pipe] + after, Pipe) == 1
  {
    CountConcat(before, [Pipe], Pipe);
    CountConcat(before + [Pipe], after, Pipe);
  }

  /** Formatting tolerance: a website and key free of pipes and of surrounding
      whitespace come back unchanged, whatever whitespace pads the pipe. */
  lemma SplitRoundTrip(website: string, apiKey: string, ws1: string, ws2: string)
    requires Pipe !in website && Pipe !in apiKey
    requires Stripped(website) && Stripped(apiKey)
    requires AllSpace(ws1) && AllSpace(ws2)
    ensures SplitOnPipe(website + ws1 + [Pipe] + ws2 + apiKey) == Success((website, apiKey))
  {
    var before := website + ws1;
    var after := ws2 + apiKey;
    var input := before + [Pipe] + after;
    assert website + ws1 + [Pipe] + ws2 + apiKey == input;
    assert !IsSpace(Pipe);
    assert Pipe !in before && Pipe !in after;
    OnePipe(before, after);
    var j := |before|;
    assert input[..j] == before && input[j + 1..] == after;
    IndexOfUnique(input, Pipe, j);
    assert before == "" + website + ws1;
    StripPadded("", website, ws1);
    assert after == ws2 + apiKey + "";
    StripPadded(ws2, apiKey, "");
  }
}

=== FILE: commands.dfy ===
/**
 * The `site_status` and `monitor_site` command handlers: an emptiness
 * check, the pipe split, then the website check, each answering with a
 * fixed message on failure.
 */
module Commands {
  import opened Wrappers
  import opened PyStr
  import opened CommandText
  import opened Hostname
  import opened StatusQuery

  /** The first check a command's text fails. */
  datatype Rejection = MissingWebsite | BadFormat | BadWebsite

  // The replies are written as concatenations of short pieces so that the
  // verifier can look at their characters.
  const MissingWebsiteText: string :=
    "Please provide a website." + " It should not include the scheme"
    + " (http/https).\n Example: " + "`/status subdomain.example.com`"
  const BadFormatText: string :=
    "Improperly formatted command." + " There should be exactly one pipe (|)"
    + " separating the website and API key." + " Example: `\\site-status "
    + "subdomain.example.com | <your api key here>`"
  const BadWebsiteText: string :=
    "Please provide a valid website" + " without the scheme (the http/https part)"
    + " or path.\nExample website: " + "`subdomain.example.com`"

  /** The reply for each failed check: the prompt for a missing website,
      the format help for a bad split, the website help for a bad website. */
  function RejectionText(r: Rejection): (t: string)
    ensures t == MissingWebsiteText <==> r == MissingWebsite
    ensures t == BadFormatText <==> r == BadFormat
    ensures t == BadWebsiteText <==> r == BadWebsite
  {
    match r
    case MissingWebsite => MissingWebsiteText
    case BadFormat => BadFormatText
    case BadWebsite => BadWebsiteText
  }

  /** Python truthiness of the form field: absent and empty are both false. */
  predicate Given(commandText: Option<string>) {
    commandText.Some? && |commandText.value| > 0
  }

  /** The website half of a text that holds exactly one pipe. */
  function WebsiteOf(text: string): string
    requires Count(text, Pipe) == 1
  {
    SplitOnPipe(text).value.0
  }

  /** `re.match(pattern, website.strip())`: on a website that is already
      stripped, exactly the host-name shape. */
  function WebsiteAccepted(website: string): (ok: bool)
    ensures Stripped(website) ==> (ok <==> IsHostname(website)) && (ok <==> RegexMatch(website))
  {
    assert Stripped(website) ==> Strip(website) == website && (RegexMatch(website) <==> IsHostname(website)) by {
      if Stripped(website) {
        StripOfStripped(website);
        RegexMatchOnStripped(website);
      }
    }
    RegexMatch(Strip(website))
  }

  /** The checks both handlers run, in order; on success, the stripped
      website and API key. */
  function Validate(commandText: Option<string>): (r: Result<(string, string), Rejection>)
    ensures r == Failure(MissingWebsite) <==> !Given(commandText)
    ensures r == Failure(BadFormat) <==> Given(commandText) && Count(commandText.value, Pipe) != 1
    ensures r == Failure(BadWebsite) <==>
      Given(commandText) && Count(commandText.value, Pipe) == 1 && !IsHostname(WebsiteOf(commandText.value))
    ensures r.Success? ==>
      && Given(commandText) && SplitOnPipe(commandText.value) == Success(r.value)
      && IsHostname(r.value.0) && RegexMatch(r.value.0)
      && Stripped(r.value.0) && Stripped(r.value.1)
      && Pipe !in r.value.0 && Pipe !in r.value.1
  {
    if !Given(commandText) then Failure(MissingWebsite)
    else match SplitOnPipe(commandText.value)
      case Failure(_) => Failure(BadFormat)
      case Success((website, apiKey)) =>
        if !WebsiteAccepted(website) then Failure(BadWebsite)
        else Success((website, apiKey))
  }

  datatype SiteStatusResult =
    | Rejected(reason: Rejection)
      /** The status query ran for this website and key. */
    | Queried(website: string, apiKey: string, outcome: StatusOutcome)

  /** `site_status`; `fetch` stands for the HTTP request and JSON decoding
      for a website and key. */
  function SiteStatus(commandText: Option<string>, fetch: (string, string) -> Fetch): (r: SiteStatusResult)
    ensures r.Queried? <==>
      Given(commandText) && Count(commandText.value, Pipe) == 1 && IsHostname(WebsiteOf(commandText.value))
    ensures r.Rejected? ==> Validate(commandText) == Failure(r.reason)
    ensures r.Queried? ==>
      && SplitOnPipe(commandText.value) == Success((r.website, r.apiKey))
      && Stripped(r.website) && Stripped(r.apiKey)
      && r.outcome == GetStatus(fetch(r.website, r.apiKey))
  {
    match Validate(commandText)
    case Failure(reason) => Rejected(reason)
    case Success((website, apiKey)) => Queried(website, apiKey, GetStatus(fetch(website, apiKey)))
  }

  /** The string `site_status` returns, or `None` when it raises. */
  function SiteStatusReply(r: SiteStatusResult): (reply: Option<string>)
    ensures reply.None? <==> r.Queried? && r.outcome.MissingKey?
    ensures r.Rejected? ==>
      reply.Some? && reply.value in {MissingWebsiteText, BadFormatText, BadWebsiteText}
    ensures r.Rejected? ==> reply == Some(RejectionText(r.reason))
    ensures r.Queried? ==> reply == Reply(r.outcome)
  {
    match r
    case Rejected(reason) => Some(RejectionText(reason))
    case Queried(_, _, outcome) => Reply(outcome)
  }

  /** Each check's reply names that check alone. */
  lemma RejectionTextInjective(a: Rejection, b: Rejection)
    requires RejectionText(a) == RejectionText(b)
    ensures a == b
  {
    assert MissingWebsiteText[0] == 'P' && BadWebsiteText[0] == 'P';
    assert MissingWebsiteText[17] == 'w' && BadWebsiteText[17] == 'v';
    assert BadFormatText[0] == 'I';
  }

  /** A reply tells whether the status query ran: it is one of the three
      fixed rejection texts exactly when a check failed. */
  lemma ReplyRevealsRejection(r: SiteStatusResult)
    requires SiteStatusReply(r).Some?
    ensures SiteStatusReply(r).value in {MissingWebsiteText, BadFormatText, BadWebsiteText}
            <==> r.Rejected?
  {
    if r.Queried? {
      var text := SiteStatusReply(r).value;
      assert MissingWebsiteText[0] == 'P' && BadWebsiteText[0] == 'P';
      assert BadFormatText[0] == 'I';
      match r.outcome
      case FetchError(detail) =>
        assert text[0] == 'E';
      case InvalidResponse =>
        assert text[0] == 'E';
      case NoMonitors =>
        assert text[0] == 'N';
      case TooManyMonitors =>
        assert text[0] == 'T';
      case Report(_, _, _, _) =>
        assert text[0] == 'W';
    }
  }

  datatype MonitorSiteResult =
    | Refused(reason: Rejection)
      /** Every check passed; storing the site is not implemented. */
    | Accepted(website: string, apiKey: string)

  /** `monitor_site`. */
  function MonitorSite(commandText: Option<string>): (r: MonitorSiteResult)
    ensures r.Accepted? <==>
      Given(commandText) && Count(commandText.value, Pipe) == 1 && IsHostname(WebsiteOf(commandText.value))
    ensures r.Refused? ==> Validate(commandText) == Failure(r.reason)
    ensures r.Accepted? ==> SplitOnPipe(commandText.value) == Success((r.website, r.apiKey))
  {
    match Validate(commandText)
    case Failure(reason) => Refused(reason)
    case Success((website, apiKey)) => Accepted(website, apiKey)
  }

  /** The string `monitor_site` returns for a refused command; for an accepted
      one the source returns an unbound `response`, which raises, so `None`. */
  function MonitorSiteReply(r: MonitorSiteResult): (reply: Option<string>)
    ensures reply.None? <==> r.Accepted?
    ensures r.Refused? ==> reply == Some(RejectionText(r.reason))
  {
    match r
    case Refused(reason) => Some(RejectionText(reason))
    case Accepted(_, _) => None
  }

  /** A text that `site_status` refuses gets the very same reply from
      `monitor_site`. */
  lemma RefusalRepliesAgree(commandText: Option<string>, fetch: (string, string) -> Fetch)
    requires SiteStatus(commandText, fetch).Rejected?
    ensures MonitorSiteReply(MonitorSite(commandText)) == SiteStatusReply(SiteStatus(commandText, fetch))
  {
    HandlersAgree(commandText, fetch);
  }

  /** Both handlers refuse the same texts for the same reason, and accept the
      others with the same website and key. */
  lemma HandlersAgree(commandText: Option<string>, fetch: (string, string) -> Fetch)
    ensures SiteStatus(commandText, fetch).Rejected? <==> MonitorSite(commandText).Refused?
    ensures SiteStatus(commandText, fetch).Rejected? ==>
      SiteStatus(commandText, fetch).reason == MonitorSite(commandText).reason
    ensures SiteStatus(commandText, fetch).Queried? ==>
      && SiteStatus(commandText, fetch).website == MonitorSite(commandText).website
      && SiteStatus(commandText, fetch).apiKey == MonitorSite(commandText).apiKey
  {
  }

  /** A well-formed command, whatever whitespace surrounds its pipe, passes
      every check with exactly the website and key it was written with. */
  lemma WellFormedCommandValid(website: string, apiKey: string, ws1: string, ws2: string)
    requires IsHostname(website)
    requires Pipe !in apiKey && Stripped(apiKey)
    requires AllSpace(ws1) && AllSpace(ws2)
    ensures Validate(Some(website + ws1 + [Pipe] + ws2 + apiKey)) == Success((website, apiKey))
  {
    var text := website + ws1 + [Pipe] + ws2 + apiKey;
    assert SplitOnPipe(text) == Success((website, apiKey)) && |text| > 0 by {
      HostnameNeitherPipeNorSpace(website);
      SplitRoundTrip(website, apiKey, ws1, ws2);
    }
  }

  /** Such a command reaches the status query with that website and key, and
      `monitor_site` accepts it with the same. */
  lemma WellFormedCommandQueried(website: string, apiKey: string, ws1: string, ws2: string,
                                 fetch: (string, string) -> Fetch)
    requires IsHostname(website)
    requires Pipe !in apiKey && Stripped(apiKey)
    requires AllSpace(ws1) && AllSpace(ws2)
    ensures SiteStatus(Some(website + ws1 + [Pipe] + ws2 + apiKey), fetch)
            == Queried(website, apiKey, GetStatus(fetch(website, apiKey)))
    ensures MonitorSite(Some(website + ws1 + [Pipe] + ws2 + apiKey)) == Accepted(website, apiKey)
  {
    WellFormedCommandValid(website, apiKey, ws1, ws2);
  }

  lemma HostnameNeitherPipeNorSpace(website: string)
    requires IsHostname(website)
    ensures Pipe !in website && Stripped(website) && |website| > 0
  {
    assert !IsHostChar(Pipe);
  }

  /** Text without a pipe is a format error for both handlers. */
  lemma NoSeparatorRejected(text: string, fetch: (string, string) -> Fetch)
    requires |text| > 0 && Pipe !in text
    ensures SiteStatus(Some(text), fetch) == Rejected(BadFormat)
    ensures MonitorSite(Some(text)) == Refused(BadFormat)
  {
    assert Validate(Some(text)) == Failure(BadFormat);
  }

  /** Text with a second pipe is a format error for both handlers, whatever
      stands around the pipes. */
  lemma ExtraSeparatorRejected(a: string, b: string, c: string, fetch: (string, string) -> Fetch)
    ensures SiteStatus(Some(a + [Pipe] + b + [Pipe] + c), fetch) == Rejected(BadFormat)
    ensures MonitorSite(Some(a + [Pipe] + b + [Pipe] + c)) == Refused(BadFormat)
  {
    var text := a + [Pipe] + b + [Pipe] + c;
    CountConcat(a + [Pipe] + b, [Pipe] + c, Pipe);
    CountConcat(a + [Pipe], b, Pipe);
    CountConcat(a, [Pipe], Pipe);
    CountConcat([Pipe], c, Pipe);
    assert text == (a + [Pipe] + b) + ([Pipe] + c);
    assert Count(text, Pipe) >= 2;
    assert Validate(Some(text)) == Failure(BadFormat);
  }

  /** A command whose website half is not a host name fails the website
      check, once the split has succeeded. */
  lemma InvalidWebsiteRejected(website: string, apiKey: string)
    requires Pipe !in website && Stripped(website) && !IsHostname(website)
    requires Pipe !in apiKey && Stripped(apiKey)
    ensures Validate(Some(website + [Pipe] + apiKey)) == Failure(BadWebsite)
  {
    var text := website + [Pipe] + apiKey;
    assert SplitOnPipe(text) == Success((website, apiKey)) by {
      assert text == website + "" + [Pipe] + "" + apiKey;
      SplitRoundTrip(website, apiKey, "", "");
    }
    assert |text| > 0;
  }

  /** A website written with its scheme is not a host name. */
  lemma SchemeWebsiteNotHostname(host: string)
    ensures !IsHostname("https://" + host) && !IsHostname("http://" + host)
  {
    assert ("https://" + host)[5] == ':';
    ColonOrSlashRejected("https://" + host);
    RegexMatchIffHostname("https://" + host);
    assert ("http://" + host)[4] == ':';
    ColonOrSlashRejected("http://" + host);
    RegexMatchIffHostname("http://" + host);
  }

  /** A website written with its scheme passes the split and fails the
      website check, in both handlers. */
  lemma SchemeRejected(host: string, apiKey: string, fetch: (string, string) -> Fetch)
    requires Pipe !in host && Stripped(host)
    requires Pipe !in apiKey && Stripped(apiKey)
    ensures SiteStatus(Some("https://" + host + [Pipe] + apiKey), fetch) == Rejected(BadWebsite)
    ensures MonitorSite(Some("https://" + host + [Pipe] + apiKey)) == Refused(BadWebsite)
  {
    var website := "https://" + host;
    assert Pipe !in website && Stripped(website);
    SchemeWebsiteNotHostname(host);
    InvalidWebsiteRejected(website, apiKey);
  }
}

=== FILE: decimal.dfy ===
/**
 * Python's `str(n)` for an integer, as the status report's f-string
 * renders the raw status code, together with its inverse.
 */
module Decimal {
  import opened Wrappers

  predicate IsDigit(c: char) {
    '0' <= c <= '9'
  }

  predicate AllDigits(s: string) {
    forall i :: 0 <= i < |s| ==> IsDigit(s[i])
  }

  function DigitChar(d: nat): (c: char)
    requires d < 10
    ensures IsDigit(c)
  {
    ('0' as int + d) as char
  }

  function DigitValue(c: char): (d: nat)
    requires IsDigit(c)
    ensures d < 10
  {
    c as int - '0' as int
  }

  /** The decimal digits of `n`, most significant first, without leading zeros. */
  function NatToString(n: nat): (s: string)
    ensures |s| > 0 && AllDigits(s)
    ensures |s| > 1 ==> s[0] != '0'
  {
    if n < 10 then [DigitChar(n)]
    else
      var s := NatToString(n / 10) + [DigitChar(n % 10)];
      assert s[0] == NatToString(n / 10)[0];
      s
  }

  /** The value of a string of decimal digits. */
  function DigitsValue(s: string): nat
    requires AllDigits(s)
  {
    if |s| == 0 then 0
    else DigitsValue(s[..|s| - 1]) * 10 + DigitValue(s[|s| - 1])
  }

  lemma {:induction false} NatToStringValue(n: nat)
    ensures DigitsValue(NatToString(n)) == n
  {
    if n >= 10 {
      var s := NatToString(n);
      assert s[..|s| - 1] == NatToString(n / 10);
      NatToStringValue(n / 10);
    }
  }

  /** `str(n)`: a minus sign for negative numbers, then the digits. */
  function IntToString(n: int): (s: string)
    ensures |s| > 0
    ensures s[0] == '-' <==> n < 0
    ensures AllDigits(if n < 0 then s[1..] else s)
  {
    if n < 0 then "-" + NatToString(-n) else NatToString(n)
  }

  /** Reads back what `IntToString` writes: an optional minus sign and a
      non-empty run of digits. */
  function ParseInt(s: string): Option<int>
  {
    if |s| > 0 && s[0] == '-' && |s| > 1 && AllDigits(s[1..]) then Some(0 - DigitsValue(s[1..]) as int)
    else if |s| > 0 && AllDigits(s) then Some(DigitsValue(s))
    else None
  }

  /** The rendered code reads back as the code: `int(str(n)) == n`. */
  lemma IntToStringRoundTrip(n: int)
    ensures ParseInt(IntToString(n)) == Some(n)
  {
    if n < 0 {
      var digits := NatToString(-n);
      var s := "-" + digits;
      assert s[0] == '-' && s[1..] == digits;
      NatToStringValue(-n);
      assert ParseInt(s) == Some(0 - DigitsValue(digits) as int);
    } else {
      var s := NatToString(n);
      assert IsDigit(s[0]);
      NatToStringValue(n);
      assert ParseInt(s) == Some(DigitsValue(s) as int);
    }
  }

  /** Distinct codes are rendered differently. */
  lemma IntToStringInjective(m: int, n: int)
    requires IntToString(m) == IntToString(n)
    ensures m == n
  {
    IntToStringRoundTrip(m);
    IntToStringRoundTrip(n);
  }
}

=== FILE: hostname.dfy ===
/**
 * The website check `re.match(r"^(?!https?://)[a-zA-Z0-9.-]+\.[a-zA-Z]{2,}$", s)`,
 * modelled as written, and the simpler shape it reduces to.
 */
module Hostname {
  import opened Wrappers
  import opened PyStr

  /** `[a-zA-Z]`: ASCII letters only. */
  predicate IsAsciiLetter(c: char) {
    'a' <= c <= 'z' || 'A' <= c <= 'Z'
  }

  /** `[a-zA-Z0-9.-]`. */
  predicate IsHostChar(c: char) {
    IsAsciiLetter(c) || '0' <= c <= '9' || c == '.' || c == '-'
  }

  /** The negative lookahead `(?!https?://)` fails exactly when this holds. */
  predicate HasScheme(s: string) {
    "http://" <= s || "https://" <= s
  }

  /** `[a-zA-Z0-9.-]+\.[a-zA-Z]{2,}` spans all of `s`, with its `\.` at index `i`. */
  predicate MatchesWithDotAt(s: string, i: int) {
    && 0 < i < |s| - 2
    && s[i] == '.'
    && (forall j :: 0 <= j < i ==> IsHostChar(s[j]))
    && (forall j :: i < j < |s| ==> IsAsciiLetter(s[j]))
  }

  /** Backtracking tries every split point; the body matches if one works. */
  predicate BodyMatches(s: string) {
    exists i :: 0 < i < |s| && MatchesWithDotAt(s, i)
  }

  /** `re.match` with the pattern above: anchored at the start, the lookahead
      at position 0, and `$` matching at the end or just before a final newline. */
  predicate RegexMatch(s: string): (m: bool)
    ensures m ==> 4 <= |s| && ':' !in s && '/' !in s
  {
    && !HasScheme(s)
    && (|| BodyMatches(s)
        || (|s| > 0 && s[|s| - 1] == '\n' && BodyMatches(s[..|s| - 1])))
  }

  /** The shape the pattern reduces to: only `[a-zA-Z0-9.-]`, and a last `.`
      with something before it and at least two ASCII letters after it. */
  predicate IsHostname(s: string) {
    && (forall k :: 0 <= k < |s| ==> IsHostChar(s[k]))
    && match LastIndexOf(s, '.')
       case None => false
       case Some(i) => 0 < i && i + 2 < |s| && forall k :: i < k < |s| ==> IsAsciiLetter(s[k])
  }

  /** The last-dot scan decides the regex body: both directions. */
  lemma IsHostnameIffBody(s: string)
    ensures IsHostname(s) <==> BodyMatches(s)
  {
    if IsHostname(s) {
      var i := LastIndexOf(s, '.').value;
      assert MatchesWithDotAt(s, i);
    }
    if BodyMatches(s) {
      var i :| 0 < i < |s| && MatchesWithDotAt(s, i);
      assert forall k :: 0 <= k < |s| ==> IsHostChar(s[k]) by {
        forall k | 0 <= k < |s| ensures IsHostChar(s[k]) {
          if k > i { assert IsAsciiLetter(s[k]); }
        }
      }
      LastIndexOfAt(s, '.', i);
    }
  }

  /** A character outside `[a-zA-Z0-9.-]` anywhere in `s` defeats the body. */
  lemma ForeignCharDefeatsBody(s: string, k: nat)
    requires k < |s| && !IsHostChar(s[k])
    ensures !BodyMatches(s)
  {
  }

  /** The lookahead never changes the verdict: a scheme brings a `:`, which
      the character class already refuses. */
  lemma LookaheadRedundant(s: string)
    ensures RegexMatch(s) <==>
      (|| BodyMatches(s)
       || (|s| > 0 && s[|s| - 1] == '\n' && BodyMatches(s[..|s| - 1])))
  {
    if HasScheme(s) {
      var k := if "http://" <= s then 4 else 5;
      assert s[k] == ':';
      ForeignCharDefeatsBody(s, k);
      if |s| > 0 && s[|s| - 1] == '\n' {
        ForeignCharDefeatsBody(s[..|s| - 1], k);
      }
    }
  }

  /** What the check accepts, in terms of the reduced shape: a host name,
      or a host name followed by one newline. */
  lemma RegexMatchIffHostname(s: string)
    ensures RegexMatch(s) <==>
      (|| IsHostname(s)
       || (|s| > 0 && s[|s| - 1] == '\n' && IsHostname(s[..|s| - 1])))
  {
    LookaheadRedundant(s);
    IsHostnameIffBody(s);
    if |s| > 0 {
      IsHostnameIffBody(s[..|s| - 1]);
    }
  }

  /** On stripped text, as the command handlers pass it, the check is exactly
      the reduced shape. */
  lemma RegexMatchOnStripped(s: string)
    requires Stripped(s)
    ensures RegexMatch(s) <==> IsHostname(s)
  {
    RegexMatchIffHostname(s);
  }

  /** Every `P + "." + T` with `P` non-empty over `[a-zA-Z0-9.-]` and `T` at
      least two ASCII letters is accepted, empty labels included. */
  lemma ShapeAccepted(p: string, t: string)
    requires |p| > 0 && forall k :: 0 <= k < |p| ==> IsHostChar(p[k])
    requires |t| >= 2 && forall k :: 0 <= k < |t| ==> IsAsciiLetter(t[k])
    ensures RegexMatch(p + "." + t)
  {
    var s := p + "." + t;
    assert MatchesWithDotAt(s, |p|);
    LookaheadRedundant(s);
  }

  /** Text holding a `:` or a `/` is refused, so no URL with a scheme and no
      host followed by a path gets through. */
  lemma ColonOrSlashRejected(s: string)
    requires ':' in s || '/' in s
    ensures !RegexMatch(s)
  {
    var k :| 0 <= k < |s| && (s[k] == ':' || s[k] == '/');
    ForeignCharDefeatsBody(s, k);
    if |s| > 0 && s[|s| - 1] == '\n' {
      ForeignCharDefeatsBody(s[..|s| - 1], k);
    }
  }

  /** An accepted host name stops being accepted once a scheme is put in
      front of it or a path after it. */
  lemma SchemeOrPathVariantsRejected(h: string, path: string)
    requires IsHostname(h)
    ensures RegexMatch(h)
    ensures !RegexMatch("http://" + h) && !RegexMatch("https://" + h)
    ensures !RegexMatch(h + "/" + path)
  {
    RegexMatchIffHostname(h);
    assert ("http://" + h)[4] == ':';
    ColonOrSlashRejected("http://" + h);
    assert ("https://" + h)[5] == ':';
    ColonOrSlashRejected("https://" + h);
    assert (h + "/" + path)[|h|] == '/';
    ColonOrSlashRejected(h + "/" + path);
  }

  /** Labels may be empty or made of dashes, as in `..ab` and `-.ab`. */
  lemma AcceptedExamples()
    ensures RegexMatch("sub.example.com")
    ensures RegexMatch("..ab") && RegexMatch("-.ab")
  {
    assert "sub.example.com"[0] == 's';
    assert MatchesWithDotAt("sub.example.com", 11);
    assert MatchesWithDotAt("..ab", 1);
    assert MatchesWithDotAt("-.ab", 1);
  }

  /** The last `.` needs something before it and two letters after it. */
  lemma RejectedExamples()
    ensures !RegexMatch(".ab") && !RegexMatch("a.b") && !RegexMatch("a.b1")
    ensures !RegexMatch("localhost")
  {
    assert "a.b1"[3] == '1';
  }
}

=== FILE: pystr.dfy ===
/**
 * The Python `str` operations the command path relies on: `str.strip()`,
 * `str.count(c)`, and the first occurrence of a character, where
 * `split(c, 1)` cuts. The last occurrence (`str.rfind(c)`) is not called
 * by the source; it serves the reduced host-name shape only.
 * Whitespace is Python's ASCII whitespace set.
 */
module PyStr {
  import opened Wrappers

  /** `c.isspace()` for ASCII: tab, line feed, vertical tab, form feed,
      carriage return, the four information separators and space. */
  predicate IsSpace(c: char) {
    ('\t' <= c <= '\r') || ('\U{1C}' <= c <= '\U{1F}') || c == ' '
  }

  predicate AllSpace(w: string) {
    forall i :: 0 <= i < |w| ==> IsSpace(w[i])
  }

  /** Neither end of `s` is whitespace: what `strip()` leaves behind. */
  predicate Stripped(s: string) {
    |s| == 0 || (!IsSpace(s[0]) && !IsSpace(s[|s| - 1]))
  }

  /** Scanning forward from `i`, the first position that is not whitespace. */
  function SkipSpace(s: string, i: nat): (j: nat)
    requires i <= |s|
    ensures i <= j <= |s|
    ensures forall k :: i <= k < j ==> IsSpace(s[k])
    ensures j < |s| ==> !IsSpace(s[j])
    decreases |s| - i
  {
    if i < |s| && IsSpace(s[i]) then SkipSpace(s, i + 1) else i
  }

  /** Scanning backward from `j`, but not past `lo`, the end of the last
      character that is not whitespace. */
  function SkipSpaceBack(s: string, lo: nat, j: nat): (k: nat)
    requires lo <= j <= |s|
    ensures lo <= k <= j
    ensures forall m :: k <= m < j ==> IsSpace(s[m])
    ensures k > lo ==> !IsSpace(s[k - 1])
  {
    if j > lo && IsSpace(s[j - 1]) then SkipSpaceBack(s, lo, j - 1) else j
  }

  /** `r` is `s` with some whitespace removed from each end, and nothing else. */
  ghost predicate Trims(s: string, r: string) {
    exists lo, hi :: 0 <= lo <= hi <= |s| && r == s[lo..hi]
      && (forall k :: 0 <= k < lo ==> IsSpace(s[k]))
      && (forall k :: hi <= k < |s| ==> IsSpace(s[k]))
  }

  /** `s.strip()`: `s` with the whitespace at both ends removed, and nothing else. */
  function Strip(s: string): (r: string)
    ensures Stripped(r)
    ensures Trims(s, r)
  {
    var lo := SkipSpace(s, 0);
    var hi := SkipSpaceBack(s, lo, |s|);
    assert hi > lo ==> !IsSpace(s[lo]);
    s[lo..hi]
  }

  /** Stripping removes characters only: what `strip()` returns holds no
      character its input does not. */
  lemma StripKeepsOnly(s: string, c: char)
    requires c !in s
    ensures c !in Strip(s)
  {
  }

  lemma {:induction false} SkipPadding(t: string, w: nat, i: nat)
    requires i <= w <= |t|
    requires forall k :: 0 <= k < w ==> IsSpace(t[k])
    requires w < |t| ==> !IsSpace(t[w])
    ensures SkipSpace(t, i) == w
    decreases w - i
  {
    if i < w {
      SkipPadding(t, w, i + 1);
    }
  }

  lemma {:induction false} SkipPaddingBack(t: string, lo: nat, e: nat, j: nat)
    requires lo <= e <= j <= |t|
    requires forall k :: e <= k < |t| ==> IsSpace(t[k])
    requires e > lo ==> !IsSpace(t[e - 1])
    ensures SkipSpaceBack(t, lo, j) == e
    decreases j
  {
    if j > e {
      SkipPaddingBack(t, lo, e, j - 1);
    }
  }

  /** `strip()` undoes any whitespace padding of an already stripped string. */
  lemma StripPadded(w1: string, x: string, w2: string)
    requires AllSpace(w1) && AllSpace(w2)
    requires Stripped(x)
    ensures Strip(w1 + x + w2) == x
  {
    var t := w1 + x + w2;
    if |x| == 0 {
      SkipPadding(t, |t|, 0);
      assert t[|t|..|t|] == x;
    } else {
      assert t[|w1|] == x[0];
      SkipPadding(t, |w1|, 0);
      assert t[|w1| + |x| - 1] == x[|x| - 1];
      SkipPaddingBack(t, |w1|, |w1| + |x|, |t|);
      assert t[|w1|..|w1| + |x|] == x;
    }
  }

  /** `strip()` leaves a string without surrounding whitespace unchanged. */
  lemma StripOfStripped(s: string)
    requires Stripped(s)
    ensures Strip(s) == s
  {
    assert "" + s + "" == s;
    StripPadded("", s, "");
  }

  /** `strip()` is idempotent. */
  lemma StripIdempotent(s: string)
    ensures Strip(Strip(s)) == Strip(s)
  {
    StripOfStripped(Strip(s));
  }

  /** `s.count(c)`: how many times `c` occurs in `s`. */
  function Count(s: string, c: char): (n: nat)
    ensures n <= |s|
    ensures n == 0 <==> c !in s
  {
    if |s| == 0 then 0
    else (if s[0] == c then 1 else 0) + Count(s[1..], c)
  }

  lemma {:induction false} CountConcat(a: string, b: string, c: char)
    ensures Count(a + b, c) == Count(a, c) + Count(b, c)
    decreases |a|
  {
    if |a| == 0 {
      assert a + b == b;
    } else {
      assert (a + b)[1..] == a[1..] + b;
      CountConcat(a[1..], b, c);
    }
  }

  /** Where `s.split(c, 1)` cuts when `c` occurs: the first position holding `c`. */
  function IndexOf(s: string, c: char): (i: nat)
    requires c in s
    ensures i < |s| && s[i] == c
    ensures forall j :: 0 <= j < i ==> s[j] != c
  {
    if s[0] == c then 0 else 1 + IndexOf(s[1..], c)
  }

  /** `s.rfind(c)`, with `None` for Python's `-1`: the last position holding `c`. */
  function LastIndexOf(s: string, c: char): (r: Option<nat>)
    ensures r.None? <==> c !in s
    ensures r.Some? ==> r.value < |s| && s[r.value] == c && c !in s[r.value + 1..]
  {
    if |s| == 0 then None
    else if s[|s| - 1] == c then Some(|s| - 1)
    else
      var r := LastIndexOf(s[..|s| - 1], c);
      assert r.Some? ==> s[r.value + 1..] == s[..|s| - 1][r.value + 1..] + [s[|s| - 1]];
      r
  }

  /** A position holding `c` with no `c` after it is where `rfind` stops. */
  lemma {:induction false} LastIndexOfAt(s: string, c: char, i: nat)
    requires i < |s| && s[i] == c
    requires forall j :: i < j < |s| ==> s[j] != c
    ensures LastIndexOf(s, c) == Some(i)
    decreases |s|
  {
    if i < |s| - 1 {
      LastIndexOfAt(s[..|s| - 1], c, i);
    }
  }
}

=== FILE: status_query.dfy ===
/**
 * `get_status` without its HTTP call: the provider's parsed payload is
 * mapped to one of a few outcomes, and an outcome to the reply text.
 */
module StatusQuery {
  import opened Wrappers
  import opened Decimal

  /** One monitor record; a key absent from the JSON object is `None`. */
  datatype Monitor = Monitor(friendlyName: Option<string>, url: Option<string>, status: Option<int>)

  /** The parsed JSON body: the `stat` flag and the `monitors` list, either
      of which may be absent. */
  datatype Payload = Payload(stat: Option<string>, monitors: Option<seq<Monitor>>)

  /** What the HTTP round trip produced: a parsed payload, or a
      `RequestException` described by its text. */
  datatype Fetch = Received(payload: Payload) | RequestFailed(detail: string)

  datatype StatusOutcome =
    | FetchError(detail: string)
    | InvalidResponse
    | NoMonitors
    | TooManyMonitors
      /** `monitor[key]` raised `KeyError`, which nothing catches. */
    | MissingKey(key: string)
    | Report(friendlyName: string, friendlyStatus: string, status: int, url: string)

  /** The status-code table of the provider. */
  const FriendlyStatus: map<int, string> :=
    map[0 := "Paused", 1 := "Not checked yet", 2 := "Up", 8 := "Seems down", 9 := "Down"]

  const UnknownStatus: string := "Unknown"

  /** `FriendlyStatus.get(status, "Unknown")`. */
  function FriendlyStatusOf(status: int): (name: string)
    ensures name == UnknownStatus <==> status !in {0, 1, 2, 8, 9}
  {
    if status in FriendlyStatus then FriendlyStatus[status] else UnknownStatus
  }

  /** The table names each known code, and no two codes share a name. */
  lemma FriendlyStatusTable()
    ensures FriendlyStatusOf(0) == "Paused" && FriendlyStatusOf(1) == "Not checked yet"
    ensures FriendlyStatusOf(2) == "Up" && FriendlyStatusOf(8) == "Seems down"
    ensures FriendlyStatusOf(9) == "Down"
  {
  }

  /** A status name identifies its code, except that every code outside the
      table reads "Unknown". */
  lemma FriendlyStatusInjective(a: int, b: int)
    requires FriendlyStatusOf(a) == FriendlyStatusOf(b)
    ensures a == b || (a !in FriendlyStatus && b !in FriendlyStatus)
  {
  }

  /** Reads the single monitor's fields in the order the source does:
      `friendly_name`, then `url`, then `status`. */
  function Describe(m: Monitor): (o: StatusOutcome)
    ensures o.Report? <==> m.friendlyName.Some? && m.url.Some? && m.status.Some?
    ensures o.Report? ==>
      && m.friendlyName == Some(o.friendlyName) && m.url == Some(o.url)
      && m.status == Some(o.status) && o.friendlyStatus == FriendlyStatusOf(o.status)
    ensures o.MissingKey? ==> o.key in {"friendly_name", "url", "status"}
    ensures o == MissingKey("friendly_name") <==> m.friendlyName.None?
    ensures o == MissingKey("url") <==> m.friendlyName.Some? && m.url.None?
    ensures o == MissingKey("status") <==> m.friendlyName.Some? && m.url.Some? && m.status.None?
    ensures o.Report? || o.MissingKey?
  {
    if m.friendlyName.None? then MissingKey("friendly_name")
    else if m.url.None? then MissingKey("url")
    else if m.status.None? then MissingKey("status")
    else Report(m.friendlyName.value, FriendlyStatusOf(m.status.value), m.status.value, m.url.value)
  }

  /** The number of monitors the payload lists; an absent list lists none. */
  function MonitorCount(p: Payload): nat {
    if p.monitors.None? then 0 else |p.monitors.value|
  }

  /** The checks of the payload, in the source's order. */
  function Normalise(p: Payload): (o: StatusOutcome)
    ensures o.InvalidResponse? <==> p.stat != Some("ok")
    ensures o.NoMonitors? <==> p.stat == Some("ok") && MonitorCount(p) == 0
    ensures o.TooManyMonitors? <==> p.stat == Some("ok") && MonitorCount(p) > 1
    ensures o.Report? || o.MissingKey? <==> p.stat == Some("ok") && MonitorCount(p) == 1
    ensures o.Report? || o.MissingKey? ==> o == Describe(p.monitors.value[0])
    ensures !o.FetchError?
  {
    if p.stat != Some("ok") then InvalidResponse
    else if p.monitors.None? || |p.monitors.value| == 0 then NoMonitors
    else if |p.monitors.value| > 1 then TooManyMonitors
    else if |p.monitors.value| == 0 then
      // the source's second emptiness test, already ruled out above
      assert false; NoMonitors
    else Describe(p.monitors.value[0])
  }

  /** `get_status` once the request has been made. */
  function GetStatus(f: Fetch): (o: StatusOutcome)
    ensures o.FetchError? <==> f.RequestFailed?
    ensures f.RequestFailed? ==> o.detail == f.detail
    ensures f.Received? ==> o == Normalise(f.payload)
  {
    match f
    case RequestFailed(detail) => FetchError(detail)
    case Received(p) => Normalise(p)
  }

  const FetchErrorPrefix: string := "Error fetching status: "
  const InvalidResponseText: string := FetchErrorPrefix + "Invalid response from UptimeRobot API."
  const ForWebsite: string := " found for the provided website."
  const NoMonitorsText: string := "No monitors" + ForWebsite
  const TooManyMonitorsText: string := "Too many monitors" + ForWebsite
  const ReportPrefix: string := "Website: "

  /** The string `get_status` returns, or `None` when it raises. */
  function Reply(o: StatusOutcome): (r: Option<string>)
    ensures r.None? <==> o.MissingKey?
    ensures o.FetchError? || o.InvalidResponse? ==> r.Some? && FetchErrorPrefix <= r.value
    ensures o.Report? ==> r.Some? && ReportPrefix <= r.value
  {
    match o
    case FetchError(detail) => Some(FetchErrorPrefix + detail)
    case InvalidResponse => Some(InvalidResponseText)
    case NoMonitors => Some(NoMonitorsText)
    case TooManyMonitors => Some(TooManyMonitorsText)
    case MissingKey(_) => None
    case Report(name, friendly, status, url) =>
      Some(ReportPrefix + name + "\nStatus: " + friendly + " (Status code: "
           + IntToString(status) + ")\nURL: " + url)
  }

  /** A reply starts with "Website: " exactly when it is a monitor report,
      so a report is never mistaken for one of the error replies. */
  lemma ReplyIsReportIffPrefixed(o: StatusOutcome)
    requires !o.MissingKey?
    ensures Reply(o).Some?
    ensures ReportPrefix <= Reply(o).value <==> o.Report?
  {
    match o
    case FetchError(detail) =>
      assert (FetchErrorPrefix + detail)[0] == 'E';
    case InvalidResponse =>
      assert InvalidResponseText[0] == 'E';
    case NoMonitors =>
      assert NoMonitorsText[0] == "No monitors"[0];
    case TooManyMonitors =>
      assert TooManyMonitorsText[0] == "Too many monitors"[0];
    case Report(name, friendly, status, url) =>
      var text := Reply(o).value;
      assert text[..|ReportPrefix|] == ReportPrefix;
  }

  /** The report text is the name and the status name, then `str(status)`
      between " (Status code: " and ")\nURL: ", then the URL. */
  lemma ReportLayout(name: string, friendly: string, status: int, url: string)
    ensures Reply(Report(name, friendly, status, url))
            == Some((ReportPrefix + name + "\nStatus: " + friendly + " (Status code: ")
                    + (IntToString(status) + (")\nURL: " + url)))
  {
    var head := ReportPrefix + name + "\nStatus: " + friendly + " (Status code: ";
    var code := IntToString(status);
    assert head + code + ")\nURL: " + url == head + (code + (")\nURL: " + url));
  }

  /** The report shows the monitor's name right after "Website: ", and ends
      with its URL. */
  lemma ReportShowsNameAndUrl(name: string, friendly: string, status: int, url: string)
    ensures var text := Reply(Report(name, friendly, status, url)).value;
      && |ReportPrefix| + |name| <= |text|
      && text[|ReportPrefix|..|ReportPrefix| + |name|] == name
      && text[|text| - |url|..] == url
  {
    ReportLayout(name, friendly, status, url);
  }

  /** Two strings after the same head are equal when the results are. */
  lemma SameHead(head: string, x: string, y: string)
    requires head + x == head + y
    ensures x == y
  {
    assert x == (head + x)[|head|..];
  }

  /** Two strings followed by the same tail are equal when the results are. */
  lemma SameTail(x: string, y: string, tail: string)
    requires x + tail == y + tail
    ensures x == y
  {
    assert |x| == |y|;
    assert x == (x + tail)[..|x|];
  }

  /** Reports that differ only in the status code read differently: the
      code is shown, and `str` loses nothing. */
  lemma ReportShowsCode(name: string, friendly: string, url: string, a: int, b: int)
    requires Reply(Report(name, friendly, a, url)) == Reply(Report(name, friendly, b, url))
    ensures a == b
  {
    var head := ReportPrefix + name + "\nStatus: " + friendly + " (Status code: ";
    var tail := ")\nURL: " + url;
    assert head + (IntToString(a) + tail) == head + (IntToString(b) + tail) by {
      ReportLayout(name, friendly, a, url);
      ReportLayout(name, friendly, b, url);
    }
    SameHead(head, IntToString(a) + tail, IntToString(b) + tail);
    SameTail(IntToString(a), IntToString(b), tail);
    IntToStringInjective(a, b);
  }
}

=== FILE: wrappers.dfy ===
/** Failure-compatible wrappers used throughout the model. */
module Wrappers {

  /** A value that may be absent: a missing form field or JSON key. */
  datatype Option<+T> = None | Some(value: T)

  /** Either a value or the error a Python function would raise instead. */
  datatype Result<+R, +E> = Success(value: R) | Failure(error: E)
}
